=== FILE: README.md ===
# zdj-wesele upload page — a Dafny model

`zdj-wesele` is a one-page React app where wedding guests upload their photos
to a shared Dropbox folder. The page keeps five pieces of state: the selected
`files`, an `uploading` flag, a status `message`, the `uploaded` flag that
switches to the thank-you screen, and `bgLoaded` for the background image,
which this model leaves out. Its one piece of real logic is
`handleUpload`. It copies the selection into a queue and starts
`min(3, n)` workers. Each worker repeatedly shifts the head of the queue,
uploads it and goes again. The batch settles through `Promise.all` over the
workers.

The model has five modules:

- `Wrappers` — `Option`.
- `Text` — the decimal numeral JavaScript prints for a count, read back by
  `DecimalValue`, and the substring test `String.prototype.includes`.
- `Transfer` — the dispatcher, a `Dispatcher` class. Its fields are the
  selection snapshot, the shared queue, one state per worker and the
  settled value of `Promise.all`. Two ghost fields record which worker
  claimed each position of the selection and the outcome of each transfer.
  `Valid()` is the invariant:
  - the claimed files are a prefix of the selection, and the queue holds
    the rest;
  - a live worker holds exactly one claimed file without a result, and a
    file without a result is held by the worker that claimed it;
  - a worker returns only on an empty queue;
  - a rejected worker records the file it failed on: it claimed that file,
    and that file's transfer failed with the error the worker rejected with;
  - `Promise.all` is pending, fulfilled or rejected exactly as its workers
    are.
- `Display` — the status messages, the "Wybrano n plik(i)" count line and
  the colour of the message line.
- `Component` — the `App` class: the React state and the handlers that
  change it.

JavaScript runs one piece of code at a time, so a worker's "is the queue
empty, shift its head" is atomic. A worker suspends only while its transfer
is outstanding. `Dispatcher.Step(w, r)` is worker `w` resuming with
transfer outcome `r`, and the only thing it requires is that `w` is live,
so every interleaving the event loop can produce is covered. The starting
loop is synchronous: each `runNext()` runs up to its first `await`, so the
constructor performs the first `min(3, n)` claims, and worker `i` takes
file `i`. The Dropbox transfer is the parameter `transfer: nat -> Outcome`,
the outcome of uploading the file at a given position of the selection.

The concurrency is the constant 3 (App.tsx:41). A failure is not
fail-fast: only the failing worker stops, because it rethrows instead of
recursing (App.tsx:57-66). `Promise.all` rejects at once, and the page
shows the error. The other workers keep draining the queue, and
`HandleUpload` runs them until none is live.

## Model

| member | source | states |
|---|---|---|
| Text.Decimal | zdj-wesele/src/App.tsx:217 | the count is printed as a non-empty string of decimal digits, with a leading `0` only for zero |
| Text.DecimalRoundTrip | zdj-wesele/src/App.tsx:217 | reading the printed count back as a decimal number gives the count |
| Text.Contains | zdj-wesele/src/App.tsx:223 | `message.includes(...)` as a recursive test; its partner is `Text.ContainsIffOccurs` |
| Text.ContainsIffOccurs | zdj-wesele/src/App.tsx:223 | `includes` holds exactly when the searched text occurs at some position of the message |
| Text.ContainsAfterPrefix | zdj-wesele/src/App.tsx:223 | a prefix that lacks the searched text's first character neither holds nor straddles an occurrence |
| Display.CountLabel | zdj-wesele/src/App.tsx:215-218 | the count line is shown exactly when at least one file is selected |
| Display.CountLabelShowsCount | zdj-wesele/src/App.tsx:215-218 | the count line reads "Wybrano ", the number of files, then "plik" exactly for one file and "pliki" otherwise |
| Display.FileNoun | zdj-wesele/src/App.tsx:217 | the expression itself: "plik" for one file, "pliki" otherwise; `Display.CountLabelShowsCount` reads it back from the count line |
| Display.ErrorText | zdj-wesele/src/App.tsx:79 | the expression itself: the error's message when it is non-empty, otherwise the error converted to text |
| Display.FailureMessage | zdj-wesele/src/App.tsx:79 | the expression itself: the fixed Polish prefix followed by `ErrorText`; `Display.FailureMessageStyle` fixes its colour |
| Display.StyleOf | zdj-wesele/src/App.tsx:220-231 | the message line is hidden exactly when the message is empty, and has the black outline exactly when it is red |
| Display.StatusMessageStyles | zdj-wesele/src/App.tsx:223-227 | the empty-selection prompt is red and outlined, the progress message is yellow without an outline, and an empty message shows nothing |
| Display.FailureMessageStyle | zdj-wesele/src/App.tsx:79 | an upload error message is shown, and it is red exactly when the error text itself contains "Najpierw wybierz" |
| Transfer.WorkerCount | zdj-wesele/src/App.tsx:68 | the number of workers is `min(3, n)`: at most 3, at most `n`, and at least 1 for a non-empty selection |
| Transfer.Live | zdj-wesele/src/App.tsx:57-66 | the in-flight count is at most the worker count, and zero exactly when no worker waits for a transfer |
| Transfer.LiveUpdate | zdj-wesele/src/App.tsx:57-66 | changing one worker's state changes the in-flight count by that worker's contribution only |
| Transfer.FailKeepsClaims | zdj-wesele/src/App.tsx:60-65 | a worker that rethrows keeps the claim bookkeeping consistent: queue and claims unchanged, its own file resolved as failed with the error it rethrows |
| Transfer.ReturnKeepsClaims | zdj-wesele/src/App.tsx:58 | a worker returning on the empty queue keeps the claim bookkeeping consistent |
| Transfer.ClaimKeepsClaims | zdj-wesele/src/App.tsx:58-59 | the shifted head is the next file of the selection in order, and claiming it keeps the claims a FIFO prefix, each position claimed once |
| Transfer.Settle | zdj-wesele/src/App.tsx:73 | how `Promise.all` moves when one worker settles: a verdict stays, the first rejection rejects, it fulfils once every worker returned; its partner is `Transfer.OutcomeAfterStep` |
| Transfer.OutcomeAfterStep | zdj-wesele/src/App.tsx:73 | after one worker settles, `Promise.all` is pending, fulfilled or rejected exactly as the workers are, and a rejection carries an error some transfer failed with |
| Transfer.Dispatcher.constructor | zdj-wesele/src/App.tsx:68-70 | `min(3, n)` workers are started, worker `i` holds file `i`, the queue is the rest of the selection, and an empty selection settles at once |
| Transfer.Dispatcher.Step | zdj-wesele/src/App.tsx:57-66 | any live worker may resume: it rejects on a failed transfer, returns on an empty queue, or else shifts the head, which appends the worker to the claims and leaves earlier claims as they were; only its own file gets a result, and the invariant holds |
| Transfer.Dispatcher.Reject | zdj-wesele/src/App.tsx:60-65 | a failed transfer makes its worker reject with that error, claims nothing more and rejects `Promise.all` if still pending |
| Transfer.Dispatcher.Return | zdj-wesele/src/App.tsx:58 | a worker that finds the queue empty returns without claiming, and `Promise.all` fulfils once every worker has returned |
| Transfer.Dispatcher.ShiftNext | zdj-wesele/src/App.tsx:59-62 | after a successful transfer the worker takes the file at the next selection position off the queue and starts transferring it |
| Transfer.Dispatcher.RunUntilSettled | zdj-wesele/src/App.tsx:73 | resuming live workers in any order always settles `Promise.all` |
| Transfer.Dispatcher.RunUntilIdle | zdj-wesele/src/App.tsx:57-66 | after settling, the remaining workers run until none is live; every claimed file then has the result its transfer gave, every file was claimed unless every worker failed (a failure stops only its own worker), and each failed worker failed on a file it claimed itself, with that file's error |
| Transfer.FulfilledBatchSentEveryFile | zdj-wesele/src/App.tsx:73-76 | when `Promise.all` fulfils, the queue is empty and every selected file was transferred once, successfully |
| Transfer.SiblingDrainsAfterFailure | zdj-wesele/src/App.tsx:57-66 | with four files and the second failing, `Promise.all` rejects, yet worker 0 still takes the last file and the queue drains, while worker 1 stays rejected on the second file |
| Component.App.constructor | zdj-wesele/src/App.tsx:8-12 | the page starts with nothing selected, no message, not uploading, on the upload screen |
| Component.App.SetFiles | zdj-wesele/src/App.tsx:20-22 | setting a non-empty selection clears the message; an empty one leaves it |
| Component.App.HandleFileChange | zdj-wesele/src/App.tsx:24-28 | a file list replaces the selection (clearing the message when non-empty); a missing file list changes nothing |
| Component.App.HandleAddMore | zdj-wesele/src/App.tsx:85-88 | back to the upload screen with an empty message, the selection and `uploading` untouched |
| Component.App.BeginUpload | zdj-wesele/src/App.tsx:31-42 | an empty selection only sets the prompt; otherwise `uploading` is set, the progress message shown and a batch started over the selection |
| Component.App.SettleUpload | zdj-wesele/src/App.tsx:72-82 | success clears the selection and message and shows the thank-you screen; failure keeps the selection and shows the error message; `uploading` ends false either way |
| Component.App.HandleUpload | zdj-wesele/src/App.tsx:30-83 | empty selection: prompt, no worker, no transfer. All transfers succeed: every file sent once, selection cleared, thank-you screen. Some transfer fails: selection kept, and the error shown is that of a file that was actually transferred and failed. Never left uploading; `min(3, n)` workers, none live at the end; every file is sent unless every worker failed; each failed worker failed on a file it transferred itself; every result is the transfer's own |
| Component.OneFailureStillSendsTheRest | zdj-wesele/src/App.tsx:57-79 | with four files and only the second failing, in every interleaving all four files are transferred, and the page shows the second file's error |

## Left out

- The Dropbox client, `dbx.filesUpload` and `file.arrayBuffer()`
  (App.tsx:39, 44-53) are foreign library and network calls. They are
  replaced by the `transfer` parameter, which gives each position of the
  selection its outcome. The upload path, `autorename` and the returned
  metadata are not modelled.
- Real parallelism and timing. The event loop's choice of which worker
  resumes next is the free choice of `w` in `Dispatcher.Step`.
  `RunUntilSettled` and `RunUntilIdle` make that choice with `:|`, so their
  contracts, and `HandleUpload`'s, hold for every order.
- Component.App.HandleUpload: runs the whole batch, including the workers
  that outlive a rejection, as one call, so no other handler runs in
  between. In the code, `finally` turns the upload button back on as soon
  as `Promise.all` rejects (App.tsx:80-82), while the other workers are
  still transferring (App.tsx:57-66). A second press in that window would
  start a new batch over the kept selection next to the old workers: more
  than three transfers at once, and files of the old batch sent again.
  That overlap, and a file change during a batch, are not modelled.
- Component.App.HandleUpload: the outcome of a file does not depend on when
  it is transferred or by which worker. `transfer` is a function of the
  position only.
- Component.App.HandleUpload: on failure it states that the message shows
  the error of some file that was transferred and failed, not of the first
  one to fail in time.
  Which one fails first depends on the interleaving.
- The error text `error.message || error` is modelled as a
  `TransferError`: a message, which may be empty, and the error's string
  conversion. JavaScript's conversion of an arbitrary thrown value is not
  modelled.
- The background-image preloading and `bgLoaded` (App.tsx:11, 14-18,
  90-92) are presentation only.
- The JSX layout and inline styles (App.tsx:94-236) are presentation only,
  except the count line and the colour and outline of the message line.
  Display.StyleOf models the outline as a boolean rather than the
  text-shadow string.
- The "Wysyłanie..." / "Prześlij" button label and the `disabled`
  attribute (App.tsx:191-205) are presentation only.
- `console.error` (App.tsx:78) is logging, and the access token from the
  environment (App.tsx:5) is configuration.

=== FILE: component.dfy ===
/**
  The page component `App` (App.tsx): its React state and the handlers that
  change it. Each handler runs to completion; `HandleUpload` is the whole
  asynchronous `handleUpload`, from the button press to the settled batch.
 */
module Component {
  import opened Wrappers
  import opened Transfer
  import opened Display

  class App {
    /** The current selection. */
    var files: seq<File>
    /** A batch is in flight; the upload button is disabled. */
    var uploading: bool
    /** The status line under the buttons. */
    var message: string
    /** The thank-you screen is shown. */
    var uploaded: bool

    /** Initial state: nothing selected, no message, the upload screen. */
    constructor ()
      ensures files == [] && !uploading && message == "" && !uploaded
    {
      files := [];
      uploading := false;
      message := "";
      uploaded := false;
    }

    /** `setFiles(next)`, then the effect on `files`, which clears the message when files are selected. */
    method SetFiles(next: seq<File>)
      modifies this
      ensures files == next
      ensures message == if next != [] then "" else old(message)
      ensures uploading == old(uploading) && uploaded == old(uploaded)
    {
      files := next;
      if |files| > 0 {
        message := "";
      }
    }

    /** The file input changed; `selection` is `e.target.files`, absent when the input has no file list. */
    method HandleFileChange(selection: Option<seq<File>>)
      modifies this
      ensures selection.None? ==> files == old(files) && message == old(message)
      ensures selection.Some? ==>
        files == selection.value &&
        message == if selection.value != [] then "" else old(message)
      ensures uploading == old(uploading) && uploaded == old(uploaded)
    {
      if selection.Some? {
        SetFiles(selection.value);
      }
    }

    /** "Dodaj kolejne zdjęcia": back from the thank-you screen to the upload screen. */
    method HandleAddMore()
      modifies this
      ensures !uploaded && message == ""
      ensures files == old(files) && uploading == old(uploading)
    {
      uploaded := false;
      message := "";
    }

    /**
      The synchronous part of `handleUpload`, up to `await Promise.all`:
      refuses an empty selection, otherwise marks the upload as in progress
      and starts the workers over a copy of the selection.
     */
    method BeginUpload() returns (batch: Dispatcher?)
      modifies this
      ensures files == old(files) && uploaded == old(uploaded)
      ensures old(files) == [] ==>
        batch == null && message == EmptySelectionMessage && uploading == old(uploading)
      ensures old(files) != [] ==>
        batch != null && fresh(batch) && batch.Valid() &&
        batch.files == files && batch.outcome.None? &&
        (forall p :: 0 <= p < |batch.results| ==> batch.results[p].None?) &&
        |batch.workers| == WorkerCount(|files|) &&
        uploading && message == InProgressMessage
    {
      if |files| == 0 {
        message := EmptySelectionMessage;
        return null;
      }
      uploading := true;
      message := InProgressMessage;
      batch := new Dispatcher(files);
    }

    /** What runs once `Promise.all` settles: the `try`, `catch` and `finally` blocks. */
    method SettleUpload(result: Outcome)
      modifies this
      ensures !uploading
      ensures result.Ok? ==> message == "" && files == [] && uploaded
      ensures result.Err? ==>
        message == FailureMessage(result.error) && files == old(files) && uploaded == old(uploaded)
    {
      if result.Ok? {
        message := "";
        SetFiles([]);
        uploaded := true;
      } else {
        message := FailureMessage(result.error);
      }
      uploading := false;
    }

    /**
      The upload button: starts the batch, lets the event loop resume any
      live worker with the outcome `transfer` gives for the file it holds
      (by position in the selection) until no worker is live, and settles the
      page when `Promise.all` settles. Workers that outlive a rejection go on
      draining the queue; the page state no longer changes. `results` holds
      the outcome of each transfer by position, `claims` the worker that took
      each position, and `workers` the final state of each worker.
     */
    method HandleUpload(transfer: nat -> Outcome)
      returns (ghost results: seq<Option<Outcome>>, ghost claims: seq<nat>, ghost workers: seq<Worker>)
      modifies this
      ensures |workers| == WorkerCount(|old(files)|) && !AnyLive(workers)
      ensures |results| == |old(files)| || forall w :: 0 <= w < |workers| ==> workers[w].Failed?
      ensures |claims| == |results|
      ensures forall w :: 0 <= w < |workers| && workers[w].Failed? ==>
        workers[w].slot < |results| && claims[workers[w].slot] == w &&
        results[workers[w].slot] == Some(Err(workers[w].error))
      ensures old(files) == [] ==>
        message == EmptySelectionMessage && results == [] &&
        files == old(files) && uploading == old(uploading) && uploaded == old(uploaded)
      ensures old(files) != [] ==> !uploading
      ensures |results| <= |old(files)|
      ensures forall p :: 0 <= p < |results| ==> results[p] == Some(transfer(p))
      ensures old(files) != [] && (forall p :: 0 <= p < |old(files)| ==> transfer(p).Ok?) ==>
        files == [] && message == "" && uploaded && |results| == |old(files)|
      ensures old(files) != [] && (exists p :: 0 <= p < |old(files)| && transfer(p).Err?) ==>
        files == old(files) && uploaded == old(uploaded) &&
        exists p :: 0 <= p < |results| && transfer(p).Err? && message == FailureMessage(transfer(p).error)
    {
      var batch := BeginUpload();
      if batch == null {
        return [], [], [];
      }
      batch.RunUntilSettled(transfer);
      var outcome := batch.outcome.value;
      if outcome.Ok? {
        FulfilledBatchSentEveryFile(batch);
      } else {
        ghost var p :| 0 <= p < |batch.results| && batch.results[p] == Some(Err(outcome.error));
        assert transfer(p) == Err(outcome.error);
      }
      SettleUpload(outcome);
      batch.RunUntilIdle(transfer);
      results, claims, workers := batch.results, batch.claims, batch.workers;
    }
  }

  /**
    One failed file does not stop the batch: of four files only the second
    fails, and still every file is transferred, while the page shows that
    file's error.
   */
  method OneFailureStillSendsTheRest(a: File, b: File, c: File, d: File, err: TransferError)
    returns (ghost results: seq<Option<Outcome>>, message: string)
    ensures |results| == 4
    ensures results == [Some(Ok), Some(Err(err)), Some(Ok), Some(Ok)]
    ensures message == FailureMessage(err)
  {
    var app := new App();
    app.HandleFileChange(Some([a, b, c, d]));
    var transfer: nat -> Outcome := p => if p == 1 then Err(err) else Ok;
    assert 1 < |app.files| && transfer(1).Err?;
    ghost var claims, workers;
    results, claims, workers := app.HandleUpload(transfer);
    // a rejected worker rejected on a failed transfer it claimed, and only
    // position 1 failed: so workers 0 and 1 cannot both have rejected
    assert workers[0].Failed? ==> workers[0].slot == 1 && claims[1] == 0;
    assert workers[1].Failed? ==> workers[1].slot == 1 && claims[1] == 1;
    ghost var p :| 0 <= p < |results| && transfer(p).Err? && app.message == FailureMessage(transfer(p).error);
    assert p == 1;
    message := app.message;
  }
}

=== FILE: display.dfy ===
/**
  What the page shows besides the buttons: the status messages, the
  "Wybrano n plik(i)" count under the buttons, and the colour of the message
  line (App.tsx, lines 215-231).
 */
module Display {
  import opened Wrappers
  import opened Text
  import opened Transfer

  /** Shown when the upload button is pressed with nothing selected. */
  const EmptySelectionMessage: string := "Najpierw wybierz pliki."
  /** Shown while a batch is in flight. */
  const InProgressMessage: string := "Upload w toku..."
  /** Put in front of the error text when a batch fails. */
  const FailurePrefix: string := "Wystąpił błąd podczas uploadu: "
  /** The text whose presence turns the message line red. */
  const PromptMarker: string := "Najpierw wybierz"
  /** The text in front of the count. */
  const CountPrefix: string := "Wybrano "

  /** `error.message || error`: the error's message when it is non-empty, otherwise the error as a string. */
  function ErrorText(e: TransferError): string {
    if e.message != "" then e.message else e.text
  }

  /** The message shown after a failed batch. */
  function FailureMessage(e: TransferError): string {
    FailurePrefix + ErrorText(e)
  }

  /** The noun after the count. */
  function FileNoun(n: nat): string {
    if n == 1 then "plik" else "pliki"
  }

  /** The count line, present only while some files are selected. */
  function CountLabel(n: nat): (r: Option<string>)
    ensures r.None? <==> n == 0
  {
    if n > 0 then Some(CountPrefix + Decimal(n) + " " + FileNoun(n)) else None
  }

  /** Reads a count line back: the number after "Wybrano " and the word after it. */
  function ReadCountLabel(s: string): Option<(nat, string)> {
    if |s| < |CountPrefix| || s[..|CountPrefix|] != CountPrefix then None
    else
      var rest := s[|CountPrefix|..];
      var digits := LeadingDigits(rest);
      if digits == [] || |digits| == |rest| || rest[|digits|] != ' ' then None
      else Some((DecimalValue(digits), rest[|digits| + 1..]))
  }

  /**
    The count line shows the number of selected files, followed by "plik"
    exactly when there is one file and by "pliki" otherwise.
   */
  lemma CountLabelShowsCount(n: nat)
    requires n > 0
    ensures CountLabel(n).Some?
    ensures ReadCountLabel(CountLabel(n).value) == Some((n, if n == 1 then "plik" else "pliki"))
  {
    var noun := FileNoun(n);
    var s := CountLabel(n).value;
    var rest := Decimal(n) + " " + noun;
    assert s == CountPrefix + rest;
    assert s[..|CountPrefix|] == CountPrefix && s[|CountPrefix|..] == rest;
    assert rest == Decimal(n) + (" " + noun);
    LeadingDigitsOfNumeral(Decimal(n), " " + noun);
    assert rest[|Decimal(n)| + 1..] == noun;
    DecimalRoundTrip(n);
  }

  datatype Colour = Red | Yellow

  /** How the message line is drawn: its colour and whether it has a black outline. */
  datatype MessageStyle = MessageStyle(colour: Colour, outlined: bool)

  /**
    The message line: hidden when the message is empty; red with a black
    outline when it contains the empty-selection prompt, yellow otherwise.
   */
  function StyleOf(message: string): (r: Option<MessageStyle>)
    ensures r.None? <==> message == ""
    ensures r.Some? ==> (r.value.outlined <==> r.value.colour == Red)
  {
    if message == "" then None
    else if Contains(message, PromptMarker) then Some(MessageStyle(Red, true))
    else Some(MessageStyle(Yellow, false))
  }

  /** The empty-selection prompt is red and outlined; the progress message is plain yellow. */
  lemma StatusMessageStyles()
    ensures StyleOf(EmptySelectionMessage) == Some(MessageStyle(Red, true))
    ensures StyleOf(InProgressMessage) == Some(MessageStyle(Yellow, false))
    ensures StyleOf("").None?
  {
    assert EmptySelectionMessage[..|PromptMarker|] == PromptMarker;
    assert |InProgressMessage| == |PromptMarker|;
    assert InProgressMessage[..|PromptMarker|][0] != PromptMarker[0];
    assert !Contains(InProgressMessage[1..], PromptMarker);
  }

  /**
    A failure message is red exactly when the error text itself contains the
    prompt: the fixed prefix never does, not even across the join.
   */
  lemma FailureMessageStyle(e: TransferError)
    ensures StyleOf(FailureMessage(e)).Some?
    ensures StyleOf(FailureMessage(e)).value.colour == Red <==> Contains(ErrorText(e), PromptMarker)
  {
    assert PromptMarker[0] == 'N';
    assert 'N' !in FailurePrefix;
    ContainsAfterPrefix(FailurePrefix, ErrorText(e), PromptMarker);
  }
}

=== FILE: text.dfy ===
/**
  String helpers the page relies on: the decimal numeral JavaScript prints for a
  non-negative integer (the count in "Wybrano 3 pliki") and the substring test
  behind `String.prototype.includes`.
 */
module Text {

  predicate IsDigit(c: char) {
    '0' <= c <= '9'
  }

  predicate AllDigits(s: string) {
    forall i :: 0 <= i < |s| ==> IsDigit(s[i])
  }

  function DigitChar(d: nat): (c: char)
    requires d < 10
    ensures IsDigit(c) && c as int - '0' as int == d
  {
    (d + '0' as int) as char
  }

  /** The decimal numeral of `n`, without leading zeros. */
  function Decimal(n: nat): (r: string)
    ensures |r| > 0 && AllDigits(r)
    ensures r[0] == '0' <==> n == 0
    ensures n == 0 ==> r == "0"
    decreases n
  {
    if n < 10 then [DigitChar(n)] else Decimal(n / 10) + [DigitChar(n % 10)]
  }

  /** The number a string of decimal digits denotes. */
  function DecimalValue(s: string): nat
    requires AllDigits(s)
  {
    if s == [] then 0
    else 10 * DecimalValue(s[..|s| - 1]) + (s[|s| - 1] as int - '0' as int)
  }

  /** Reading back the numeral of `n` gives `n`. */
  lemma {:induction false} DecimalRoundTrip(n: nat)
    ensures DecimalValue(Decimal(n)) == n
    decreases n
  {
    if n >= 10 {
      var r := Decimal(n);
      assert r[..|r| - 1] == Decimal(n / 10);
      DecimalRoundTrip(n / 10);
    }
  }

  /** The longest prefix of `s` made of decimal digits. */
  function LeadingDigits(s: string): (r: string)
    ensures |r| <= |s| && r == s[..|r|] && AllDigits(r)
    ensures |r| < |s| ==> !IsDigit(s[|r|])
  {
    if s == [] || !IsDigit(s[0]) then [] else [s[0]] + LeadingDigits(s[1..])
  }

  /** A run of digits followed by a non-digit is exactly the leading digits. */
  lemma {:induction false} LeadingDigitsOfNumeral(digits: string, rest: string)
    requires AllDigits(digits)
    requires rest != [] && !IsDigit(rest[0])
    ensures LeadingDigits(digits + rest) == digits
  {
    if digits != [] {
      assert (digits + rest)[1..] == digits[1..] + rest;
      LeadingDigitsOfNumeral(digits[1..], rest);
    }
  }

  /** `s.includes(sub)`: `sub` occurs somewhere in `s` (the empty string occurs everywhere). */
  predicate Contains(s: string, sub: string)
    decreases |s|
  {
    |sub| <= |s| && (s[..|sub|] == sub || Contains(s[1..], sub))
  }

  /** `sub` occurs in `s` starting at position `i`. */
  predicate OccursAt(s: string, sub: string, i: nat) {
    i + |sub| <= |s| && s[i..i + |sub|] == sub
  }

  /** The recursive test holds exactly when `sub` occurs at some position of `s`. */
  lemma {:induction false} ContainsIffOccurs(s: string, sub: string)
    ensures Contains(s, sub) <==> exists i: nat :: OccursAt(s, sub, i)
    decreases |s|
  {
    if |sub| <= |s| {
      if s[..|sub|] == sub {
        assert OccursAt(s, sub, 0);
      } else {
        ContainsIffOccurs(s[1..], sub);
        if Contains(s[1..], sub) {
          var i: nat :| OccursAt(s[1..], sub, i);
          assert s[i + 1..i + 1 + |sub|] == s[1..][i..i + |sub|];
          assert OccursAt(s, sub, i + 1);
        } else if i: nat :| OccursAt(s, sub, i) {
          assert i != 0;
          assert s[1..][i - 1..i - 1 + |sub|] == s[i..i + |sub|];
          assert OccursAt(s[1..], sub, i - 1);
        }
      }
    }
  }

  /**
    A prefix without the first character of `sub` cannot hold or straddle an
    occurrence of `sub`: the occurrences in `p + t` are those in `t`.
   */
  lemma {:induction false} ContainsAfterPrefix(p: string, t: string, sub: string)
    requires |sub| > 0 && sub[0] !in p
    ensures Contains(p + t, sub) <==> Contains(t, sub)
  {
    if p != [] {
      var s := p + t;
      assert s[0] == p[0];
      assert |sub| <= |s| ==> s[..|sub|][0] == p[0] != sub[0];
      assert s[1..] == p[1..] + t;
      ContainsAfterPrefix(p[1..], t, sub);
    } else {
      assert p + t == t;
    }
  }
}

=== FILE: transfer.dfy ===
/**
  The upload dispatcher that `handleUpload` builds (App.tsx, lines 41-73): a
  queue copied from the selection, `min(3, n)` workers that each repeat
  "claim the head of the queue, transfer it, go again", and the `Promise.all`
  over the workers that settles the batch.

  JavaScript runs one piece of code at a time, so everything between two
  suspension points is atomic. A worker suspends only while its transfer is
  outstanding; `Dispatcher.Step` is one worker resuming from that suspension,
  and any live worker may be the next to resume. That choice stands for the
  event loop's interleaving.
 */
module Transfer {
  import opened Wrappers

  /** A selected file: its name and raw contents. */
  datatype File = File(name: string, contents: seq<bv8>)

  /**
    What a failed transfer rejects with: the error's `message` property (empty
    when absent) and the text the error converts to as a string.
   */
  datatype TransferError = TransferError(message: string, text: string)

  /** Result of one transfer, as reported by the storage client. */
  datatype Outcome = Ok | Err(error: TransferError)

  /**
    A worker's state between suspension points: waiting for the transfer of
    `files[slot]` (the file it last shifted off the queue), returned because it
    found the queue empty, or rejected with the error of its last transfer,
    that of `files[slot]`.
   */
  datatype Worker = Transferring(slot: nat) | Done | Failed(slot: nat, error: TransferError)

  /** The fixed number of parallel upload slots. */
  const Concurrency: nat := 3

  /** Number of workers started for a selection of `n` files: `Math.min(3, n)`. */
  function WorkerCount(n: nat): (k: nat)
    ensures k <= Concurrency && k <= n
    ensures k == n || k == Concurrency
    ensures n > 0 ==> 1 <= k
  {
    if n < Concurrency then n else Concurrency
  }

  /** Number of workers with a transfer in flight. */
  function Live(ws: seq<Worker>): (n: nat)
    ensures n <= |ws|
    ensures n == 0 <==> forall w :: 0 <= w < |ws| ==> !ws[w].Transferring?
  {
    if ws == [] then 0
    else
      assert forall w :: 0 < w < |ws| ==> ws[w] == ws[1..][w - 1];
      (if ws[0].Transferring? then 1 else 0) + Live(ws[1..])
  }

  /** Changing one worker's state changes the in-flight count by what that worker contributes. */
  lemma {:induction false} LiveUpdate(ws: seq<Worker>, w: nat, x: Worker)
    requires w < |ws|
    ensures Live(ws[w := x]) ==
      Live(ws) - (if ws[w].Transferring? then 1 else 0) + (if x.Transferring? then 1 else 0)
  {
    if w == 0 {
      assert ws[w := x][1..] == ws[1..];
    } else {
      assert ws[w := x][1..] == ws[1..][w - 1 := x];
      LiveUpdate(ws[1..], w - 1, x);
    }
  }

  /**
    A worker still waits for a transfer: the same as `Live(ws) > 0` (see
    `Live`'s second ensures). The loops test this form because it names the
    witness worker directly; `Live` is the count they decrease.
   */
  predicate AnyLive(ws: seq<Worker>) {
    exists w :: 0 <= w < |ws| && ws[w].Transferring?
  }

  /** Some worker rejected. */
  predicate AnyFailed(ws: seq<Worker>) {
    exists w :: 0 <= w < |ws| && ws[w].Failed?
  }

  /** Every worker resolved. */
  predicate AllDone(ws: seq<Worker>) {
    forall w :: 0 <= w < |ws| ==> ws[w] == Done
  }

  /** Some finished transfer failed with `e`. */
  ghost predicate FailedWith(results: seq<Option<Outcome>>, e: TransferError) {
    exists p :: 0 <= p < |results| && results[p] == Some(Err(e))
  }

  /**
    Claims are FIFO: the files claimed so far, in claim order, are a prefix of
    the selection and the queue holds the rest. `claims[p]` is the worker
    that took the file at position `p`; `results[p]` is the outcome of its
    transfer, absent while it is in flight.
   */
  ghost predicate FifoClaims(files: seq<File>, queue: seq<File>, ws: seq<Worker>,
                             claims: seq<nat>, results: seq<Option<Outcome>>) {
    |claims| <= |files| && queue == files[|claims|..] && |results| == |claims| &&
    forall p :: 0 <= p < |claims| ==> claims[p] < |ws|
  }

  /**
    A live worker holds a claimed file of its own that has no result yet, a
    claimed file without a result is still held by the worker that claimed
    it, a failed transfer leaves some worker rejected, a rejected worker
    rejected with the error of a transfer of its own, and a worker returns
    only on an empty queue.
   */
  ghost predicate WorkersAgree(queue: seq<File>, ws: seq<Worker>, claims: seq<nat>, results: seq<Option<Outcome>>)
    requires |results| == |claims|
  {
    (forall w :: 0 <= w < |ws| && ws[w].Transferring? ==>
       ws[w].slot < |claims| && claims[ws[w].slot] == w && results[ws[w].slot].None?) &&
    (forall p :: 0 <= p < |results| && results[p].None? ==>
       claims[p] < |ws| && ws[claims[p]] == Transferring(p)) &&
    (forall p :: 0 <= p < |results| && results[p].Some? && results[p].value.Err? ==> AnyFailed(ws)) &&
    FailuresOwned(ws, claims, results) &&
    (forall w :: 0 <= w < |ws| && ws[w] == Done ==> queue == [])
  }

  /** Every rejected worker claimed the file it failed on, and that transfer failed with the error it rejected with. */
  ghost predicate FailuresOwned(ws: seq<Worker>, claims: seq<nat>, results: seq<Option<Outcome>>) {
    forall w :: 0 <= w < |ws| && ws[w].Failed? ==>
      ws[w].slot < |claims| && ws[w].slot < |results| &&
      claims[ws[w].slot] == w && results[ws[w].slot] == Some(Err(ws[w].error))
  }

  /** The bookkeeping of claims and results is consistent. */
  ghost predicate Claims(files: seq<File>, queue: seq<File>, ws: seq<Worker>,
                         claims: seq<nat>, results: seq<Option<Outcome>>) {
    FifoClaims(files, queue, ws, claims, results) && WorkersAgree(queue, ws, claims, results)
  }

  /**
    `Promise.all` is pending while no worker rejected and some worker is live,
    fulfils exactly when every worker resolved, and rejects with an error some
    transfer failed with.
   */
  ghost predicate OutcomeAgrees(ws: seq<Worker>, results: seq<Option<Outcome>>, outcome: Option<Outcome>) {
    (outcome.None? <==> !AnyFailed(ws) && AnyLive(ws)) &&
    (outcome == Some(Ok) <==> AllDone(ws)) &&
    (outcome.Some? && outcome.value.Err? ==> AnyFailed(ws) && FailedWith(results, outcome.value.error))
  }

  /** The dispatcher's invariant, over the values of its fields. */
  ghost predicate Inv(files: seq<File>, queue: seq<File>, ws: seq<Worker>,
                      claims: seq<nat>, results: seq<Option<Outcome>>, outcome: Option<Outcome>) {
    |ws| == WorkerCount(|files|) && Claims(files, queue, ws, claims, results) && OutcomeAgrees(ws, results, outcome)
  }

  /** A failed transfer keeps the bookkeeping consistent. */
  lemma {:induction false} FailKeepsClaims(files: seq<File>, queue: seq<File>, ws: seq<Worker>, claims: seq<nat>,
                                           results: seq<Option<Outcome>>, w: nat, e: TransferError)
    requires Claims(files, queue, ws, claims, results)
    requires w < |ws| && ws[w].Transferring?
    ensures Claims(files, queue, ws[w := Failed(ws[w].slot, e)], claims, results[ws[w].slot := Some(Err(e))])
  {
    var ws' := ws[w := Failed(ws[w].slot, e)];
    assert AnyFailed(ws') by { assert ws'[w].Failed?; }
  }

  /** A worker returning on the empty queue keeps the bookkeeping consistent. */
  lemma {:induction false} ReturnKeepsClaims(files: seq<File>, queue: seq<File>, ws: seq<Worker>, claims: seq<nat>,
                                             results: seq<Option<Outcome>>, w: nat)
    requires Claims(files, queue, ws, claims, results)
    requires w < |ws| && ws[w].Transferring? && queue == []
    ensures Claims(files, queue, ws[w := Done], claims, results[ws[w].slot := Some(Ok)])
  {
    var ws', results' := ws[w := Done], results[ws[w].slot := Some(Ok)];
    forall p | 0 <= p < |results'| && results'[p].Some? && results'[p].value.Err? ensures AnyFailed(ws') {
      var v :| 0 <= v < |ws| && ws[v].Failed?;
      assert ws'[v] == ws[v];
    }
  }

  /** A worker shifting the head of the queue keeps the bookkeeping consistent. */
  lemma {:induction false} ClaimKeepsClaims(files: seq<File>, queue: seq<File>, ws: seq<Worker>, claims: seq<nat>,
                                            results: seq<Option<Outcome>>, w: nat)
    requires Claims(files, queue, ws, claims, results)
    requires w < |ws| && ws[w].Transferring? && queue != []
    ensures |files| - |queue| == |claims| && files[|claims|] == queue[0]
    ensures Claims(files, queue[1..], ws[w := Transferring(|claims|)], claims + [w],
                   results[ws[w].slot := Some(Ok)] + [None])
  {
    var s := ws[w].slot;
    var ws', claims', results' := ws[w := Transferring(|claims|)], claims + [w], results[s := Some(Ok)] + [None];
    forall v | 0 <= v < |ws'| && ws'[v].Transferring?
      ensures ws'[v].slot < |claims'| && claims'[ws'[v].slot] == v && results'[ws'[v].slot].None?
    {
      if v != w {
        assert ws'[v] == ws[v] && claims'[ws[v].slot] == claims[ws[v].slot];
      }
    }
    forall p | 0 <= p < |results'| && results'[p].Some? && results'[p].value.Err? ensures AnyFailed(ws') {
      var v :| 0 <= v < |ws| && ws[v].Failed?;
      assert ws'[v] == ws[v];
    }
    forall v | 0 <= v < |ws'| && ws'[v].Failed?
      ensures claims'[ws'[v].slot] == v && results'[ws'[v].slot] == Some(Err(ws'[v].error))
    {
      assert ws'[v] == ws[v] && claims'[ws[v].slot] == claims[ws[v].slot];
    }
  }

  /**
    How `Promise.all` over the workers moves when one of them settles its
    transfer with `r`, leaving the workers as `ws`: a verdict, once reached,
    stays; the first rejection rejects it; it fulfils once every worker returned.
   */
  function Settle(outcome: Option<Outcome>, r: Outcome, ws: seq<Worker>): Option<Outcome> {
    if outcome.Some? then outcome
    else if r.Err? then Some(r)
    else if AllDone(ws) then Some(Ok)
    else None
  }

  /** The new outcome of `Promise.all` after worker `w` finished the transfer of position `s` with `r`. */
  lemma {:induction false} OutcomeAfterStep(ws: seq<Worker>, results: seq<Option<Outcome>>, outcome: Option<Outcome>,
                                            w: nat, x: Worker, s: nat, r: Outcome, results': seq<Option<Outcome>>)
    requires OutcomeAgrees(ws, results, outcome)
    requires w < |ws| && ws[w].Transferring?
    requires if r.Err? then x == Failed(s, r.error) else !x.Failed?
    requires s < |results| && results[s].None? && |results| <= |results'|
    requires forall p :: 0 <= p < |results| && p != s ==> results'[p] == results[p]
    requires results'[s] == Some(r)
    ensures OutcomeAgrees(ws[w := x], results', Settle(outcome, r, ws[w := x]))
  {
    var ws' := ws[w := x];
    assert ws'[w] == x;
    if outcome.Some? {
      assert !AllDone(ws) by { assert ws[w] != Done; }
      var v :| 0 <= v < |ws| && ws[v].Failed?;
      assert v != w && ws'[v] == ws[v];
      var p :| 0 <= p < |results| && results[p] == Some(Err(outcome.value.error));
      assert results'[p] == results[p];
    } else if r.Ok? {
      assert !AnyFailed(ws');
    }
  }

  /** One run of the worker pool over a snapshot of the selection. */
  class Dispatcher {
    /** The selection the batch was started with. */
    const files: seq<File>
    /** The shared work queue, initially a copy of `files`. */
    var queue: seq<File>
    /** The worker promises, in the order they were started. */
    var workers: seq<Worker>
    /** What `Promise.all(workers)` has settled with, if it has. */
    var outcome: Option<Outcome>
    /** `claims[p]` is the worker that took the file at position `p` off the queue. */
    ghost var claims: seq<nat>
    /** `results[p]` is the outcome of the transfer of the file at position `p`, once it finished. */
    ghost var results: seq<Option<Outcome>>

    ghost predicate Valid()
      reads this
    {
      Inv(files, queue, workers, claims, results, outcome)
    }

    /**
      Starts the batch: copies the selection into the queue and starts
      `min(3, n)` workers. Each `runNext()` call runs up to its first await
      before the loop goes on, so worker `i` claims file `i` right away.
     */
    constructor (selection: seq<File>)
      ensures Valid()
      ensures files == selection
      ensures |workers| == WorkerCount(|selection|)
      ensures forall w :: 0 <= w < |workers| ==> workers[w] == Transferring(w)
      ensures queue == selection[|workers|..]
      ensures |claims| == |workers| && (forall p :: 0 <= p < |claims| ==> claims[p] == p)
      ensures results == seq(|workers|, _ => None)
      ensures outcome == (if selection == [] then Some(Ok) else None)
    {
      var n := WorkerCount(|selection|);
      var q := selection;
      var ws: seq<Worker> := [];
      ghost var cs: seq<nat> := [];
      var i := 0;
      while i < n
        invariant 0 <= i <= n
        invariant q == selection[i..]
        invariant |ws| == i && forall w :: 0 <= w < i ==> ws[w] == Transferring(w)
        invariant |cs| == i && forall p :: 0 <= p < i ==> cs[p] == p
      {
        // runNext(): the queue still holds |selection| - i > 0 files, so it shifts
        q := q[1..];
        ws := ws + [Transferring(i)];
        cs := cs + [i];
        i := i + 1;
      }
      files := selection;
      queue := q;
      workers := ws;
      claims := cs;
      results := seq(n, _ => None);
      outcome := if n == 0 then Some(Ok) else None;
      new;
      assert n > 0 ==> workers[0].Transferring?;
    }

    /**
      Worker `w` resumes after its transfer settled with `r`: the body of
      `runNext` after its `await`, up to the next suspension or to the end of
      the worker. On failure it rethrows and claims nothing more; on success
      it returns if the queue is empty and otherwise shifts the head. Other
      workers are not told about the failure.
     */
    method Step(w: nat, r: Outcome)
      requires Valid()
      requires w < |workers| && workers[w].Transferring?
      modifies this
      ensures Valid()
      ensures old(results[workers[w].slot]).None?
      ensures |old(results)| <= |results| && results[old(workers[w].slot)] == Some(r)
      ensures forall p :: 0 <= p < |results| && p != old(workers[w].slot) ==>
        results[p] == if p < |old(results)| then old(results)[p] else None
      ensures r.Err? ==>
        workers == old(workers)[w := Failed(old(workers[w].slot), r.error)] && queue == old(queue) &&
        claims == old(claims)
      ensures r.Ok? && old(queue) == [] ==>
        workers == old(workers)[w := Done] && queue == [] && claims == old(claims)
      ensures r.Ok? && old(queue) != [] ==>
        workers == old(workers)[w := Transferring(|files| - |old(queue)|)] && queue == old(queue)[1..] &&
        claims == old(claims) + [w]
      ensures outcome == Settle(old(outcome), r, workers)
      ensures |queue| + Live(workers) < old(|queue| + Live(workers))
    {
      if r.Err? {
        Reject(w, r.error);
      } else if queue == [] {
        Return(w);
      } else {
        ShiftNext(w);
      }
    }

    /** The transfer of worker `w` rejected with `e`: `runNext` rethrows and the worker claims nothing more. */
    method Reject(w: nat, e: TransferError)
      requires Valid()
      requires w < |workers| && workers[w].Transferring?
      modifies this
      ensures Valid()
      ensures old(results[workers[w].slot]).None?
      ensures workers == old(workers)[w := Failed(old(workers[w].slot), e)] && queue == old(queue) && claims == old(claims)
      ensures results == old(results)[old(workers[w].slot) := Some(Err(e))]
      ensures outcome == Settle(old(outcome), Err(e), workers)
      ensures Live(workers) == old(Live(workers)) - 1
    {
      var s := workers[w].slot;
      var workers' := workers[w := Failed(s, e)];
      ghost var results' := results[s := Some(Err(e))];
      FailKeepsClaims(files, queue, workers, claims, results, w, e);
      OutcomeAfterStep(workers, results, outcome, w, Failed(s, e), s, Err(e), results');
      LiveUpdate(workers, w, Failed(s, e));
      var outcome' := outcome;
      if outcome.None? {
        outcome' := Some(Err(e));
      }
      workers, results, outcome := workers', results', outcome';
    }

    /** The transfer of worker `w` succeeded and `runNext` finds the queue empty, so the worker returns. */
    method Return(w: nat)
      requires Valid()
      requires w < |workers| && workers[w].Transferring? && queue == []
      modifies this
      ensures Valid()
      ensures old(results[workers[w].slot]).None?
      ensures workers == old(workers)[w := Done] && queue == [] && claims == old(claims)
      ensures results == old(results)[old(workers[w].slot) := Some(Ok)]
      ensures outcome == Settle(old(outcome), Ok, workers)
      ensures Live(workers) == old(Live(workers)) - 1
    {
      var s := workers[w].slot;
      var workers' := workers[w := Done];
      ghost var results' := results[s := Some(Ok)];
      ReturnKeepsClaims(files, queue, workers, claims, results, w);
      OutcomeAfterStep(workers, results, outcome, w, Done, s, Ok, results');
      LiveUpdate(workers, w, Done);
      var outcome' := outcome;
      if outcome.None? && AllDone(workers') {
        outcome' := Some(Ok);
      }
      workers, results, outcome := workers', results', outcome';
    }

    /**
      The transfer of worker `w` succeeded and `runNext` shifts the head of the
      queue, the file at position `|files| - |queue|`, and starts its transfer.
     */
    method ShiftNext(w: nat)
      requires Valid()
      requires w < |workers| && workers[w].Transferring? && queue != []
      modifies this
      ensures Valid()
      ensures old(results[workers[w].slot]).None?
      ensures workers == old(workers)[w := Transferring(|old(claims)|)]
      ensures |old(claims)| == |files| - |old(queue)| && files[|old(claims)|] == old(queue)[0]
      ensures queue == old(queue)[1..] && claims == old(claims) + [w]
      ensures results == old(results)[old(workers[w].slot) := Some(Ok)] + [None]
      ensures outcome == old(outcome) && outcome == Settle(old(outcome), Ok, workers)
      ensures Live(workers) == old(Live(workers))
    {
      var s := workers[w].slot;
      var workers' := workers[w := Transferring(|files| - |queue|)];
      ghost var results' := results[s := Some(Ok)] + [None];
      ClaimKeepsClaims(files, queue, workers, claims, results, w);
      OutcomeAfterStep(workers, results, outcome, w, Transferring(|claims|), s, Ok, results');
      LiveUpdate(workers, w, Transferring(|claims|));
      queue, workers, claims, results := queue[1..], workers', claims + [w], results';
    }

    /** Every finished transfer has the outcome `transfer` gives for its position. */
    ghost predicate ResultsFrom(transfer: nat -> Outcome)
      reads this
    {
      forall p :: 0 <= p < |results| && results[p].Some? ==> results[p] == Some(transfer(p))
    }

    /**
      `await Promise.all(workers)`: the event loop resumes live workers, in
      any order, each with the outcome `transfer` gives for the file it
      holds, until the batch settles.
     */
    method RunUntilSettled(transfer: nat -> Outcome)
      requires Valid() && ResultsFrom(transfer)
      modifies this
      ensures Valid() && ResultsFrom(transfer)
      ensures outcome.Some?
      ensures old(outcome).Some? ==> unchanged(this)
    {
      while outcome.None?
        invariant Valid() && ResultsFrom(transfer)
        invariant old(outcome).Some? ==> unchanged(this)
        decreases |queue| + Live(workers)
      {
        var w :| 0 <= w < |workers| && workers[w].Transferring?;
        Step(w, transfer(workers[w].slot));
      }
    }

    /**
      After the batch settled, the workers still live go on: each keeps
      claiming until the queue is empty or one of its own transfers fails.
     */
    method RunUntilIdle(transfer: nat -> Outcome)
      requires Valid() && ResultsFrom(transfer) && outcome.Some?
      modifies this
      ensures Valid() && ResultsFrom(transfer)
      ensures !AnyLive(workers) && outcome == old(outcome) && |old(results)| <= |results|
      ensures forall p :: 0 <= p < |results| ==> results[p] == Some(transfer(p))
      ensures |results| == |files| || forall w :: 0 <= w < |workers| ==> workers[w].Failed?
      ensures FailuresOwned(workers, claims, results)
    {
      while AnyLive(workers)
        invariant Valid() && ResultsFrom(transfer)
        invariant outcome == old(outcome) && |old(results)| <= |results|
        decreases |queue| + Live(workers)
      {
        var w :| 0 <= w < |workers| && workers[w].Transferring?;
        Step(w, transfer(workers[w].slot));
      }
      forall p | 0 <= p < |results| ensures results[p].Some? {
        assert !workers[claims[p]].Transferring?;
      }
      if exists w :: 0 <= w < |workers| && !workers[w].Failed? {
        var w :| 0 <= w < |workers| && !workers[w].Failed?;
        assert workers[w] == Done;
      }
    }
  }

  /**
    A batch that fulfilled has drained the queue and transferred every
    selected file, each transfer succeeding.
   */
  lemma {:induction false} FulfilledBatchSentEveryFile(d: Dispatcher)
    requires d.Valid() && d.outcome == Some(Ok)
    ensures d.queue == [] && |d.results| == |d.files|
    ensures forall p :: 0 <= p < |d.files| ==> d.results[p] == Some(Ok)
  {
    if d.files != [] {
      assert d.workers[0] == Done;
    }
    assert !AnyFailed(d.workers);
    forall p | 0 <= p < |d.files| ensures d.results[p] == Some(Ok) {
      assert d.workers[d.claims[p]] == Done;
    }
  }

  /**
    A rejected transfer does not stop the other workers: with `b` failing in
    a batch of four, `Promise.all` rejects at once, and afterwards worker 0
    still takes `d` off the queue and drains it.
   */
  method SiblingDrainsAfterFailure(a: File, b: File, c: File, d: File, err: TransferError)
    returns (outcome: Option<Outcome>, remaining: seq<File>, workers: seq<Worker>)
    ensures outcome == Some(Err(err))
    ensures remaining == []
    ensures workers == [Transferring(3), Failed(1, err), Transferring(2)]
  {
    var batch := new Dispatcher([a, b, c, d]);
    batch.Step(1, Err(err));  // b fails: Promise.all rejects
    batch.Step(0, Ok);        // a done: worker 0 shifts d
    outcome, remaining, workers := batch.outcome, batch.queue, batch.workers;
  }
}

=== FILE: wrappers.dfy ===
/** Small value wrappers shared by the other modules. */
module Wrappers {

  /** A value that may be absent. */
  datatype Option<+T> = None | Some(value: T)
}
